=== FILE: README.md ===
# Chromium release calendar: a verified model

This project models the two pieces of logic behind the Chromium page of the
Electron/Chromium release calendar, and proves properties of that model in
Dafny.

- **The milestone pipeline** of the server route `src/routes/chromium.js`.
  - `formatMilestoneData` turns the upstream dashboard's milestone entries into
    a map from calendar date to the records of that date. Each entry yields one
    `stable` record and one `beta` record, each only when its date field is
    present.
  - `fetchChromiumMilestones` decides per request what to serve:
    - the cache file, when it is less than 24 hours old;
    - otherwise fresh data: one "latest milestone" call, then one call per
      milestone `80..latest+5`, skipping calls that fail, then the
      normalisation and a write to the cache;
    - when anything in that refresh throws: the cache at any age, or `{}`.
- **The calendar-page arithmetic** of the browser script
  `src/static/js/chromium.js`:
  - the Monday-first offset of the first of the month;
  - the six-week grid and its day numbers;
  - which cells are days of the month;
  - the zero-padded `YYYY-MM-DD` lookup key;
  - the thirteen months shown around today, with the month/year wrap.

Modules:

| module | file | contents |
|---|---|---|
| `Options` | `options.dfy` | the option type used for absent, unreadable or throwing values |
| `Text` | `text.dfy` | decimal rendering of integers as a template literal renders them below 2^53 in magnitude, and its parser |
| `Milestones` | `milestones.dfy` | entries, records, the date index, the normaliser, and a reference definition it is proved against |
| `Refresh` | `refresh.dfy` | cache freshness, `Math.max` of the latest milestones, the milestone range and its loop, the refresh/fallback state machine |
| `CivilCalendar` | `civil.dfy` | the Gregorian calendar behind JavaScript `Date`: day count, `getDay`, and how `new Date(y, m - 1, n)` carries days between months |
| `Grid` | `grid.dfy` | `generateMonth` and the month loop of `main` |

How the outside world is represented:
- **I/O** is a set of inputs. The cache file is its age (`Date.now() - mtimeMs`, rounded down to a whole millisecond, which decides `age < 86 400 000` exactly as the fractional value does) and its parsed contents, each of which may be missing. The upstream dashboard is the response to the latest call and a function from milestone number to response. `mkdir` and `writeFile` are their outcomes.
  - The latest call either fails or lists its parsed milestones. A non-ok status, a body that is not JSON and a body without `mstones` all count as failures, since each throws into the fallback.
  - A per-milestone call is not ok, throws, or returns a list. A body without `mstones` counts as an empty list.
- **Date parsing.** `new Date(s).toISOString().split('T')[0]` is a parameter `dateOf` that returns `None` for an invalid date, where the source throws `RangeError`.
- **The calendar.** Day-of-week and days-in-month follow the proleptic Gregorian rules.

`fetchChromiumMilestones` in `src/routes/chromium.js` has no retry or backoff
and no deduplication, and a failed cache write falls back to the old cache.
The release-list functions `getReleasesOrUpdate` and `getActiveReleasesOrUpdate`,
which `src/index.js` imports from `src/data`, are a separate pipeline outside
this model; their source is not part of it.

A refresh that collects nothing still succeeds: when the latest call lists no
milestones, or every per-milestone call fails or returns an empty list, `{}`
is written over a readable stale cache and served (`Refresh.EmptyRefreshOverwritesCache`).

## Model

| member | source | states |
|---|---|---|
| `Text.ParseNatToString` | src/routes/chromium.js:127 | the decimal rendering of a milestone number parses back to that number, so distinct milestones give distinct version prefixes |
| `Milestones.VersionRoundTrip` | src/routes/chromium.js:124-146 | the version `{mstone}.0.0.0` / `{mstone}.0.0.0-beta` determines the milestone and the channel it was built from |
| `Milestones.FormatMilestoneData` | src/routes/chromium.js:111-151 | the result exists exactly when every present date is valid (otherwise the function throws). Its keys are exactly the dates of the records the entries yield, and the bucket under each date is those records in input order: stable before beta, no deduplication |
| `Milestones.RecordsMatchKey` | src/routes/chromium.js:117-145 | every record stored under key `k` has `date == k` |
| `Milestones.RecordProvenance` | src/routes/chromium.js:114-148 | a record is in some bucket iff some entry yields it. Such a record is stored under its own date, has `version == mstone + ".0.0.0"` (stable) or `+ ".0.0.0-beta"` (beta), and carries the milestone of an input entry |
| `Milestones.RecordCount` | src/routes/chromium.js:114-148 | the buckets hold in total `sum over entries of [stable_date present] + [earliest_beta present]` records; an entry with neither adds nothing |
| `Milestones.FormatConcat` | src/routes/chromium.js:114-148 | normalising `ms1 + ms2` puts, under every date, the records of `ms1` before those of `ms2`, and a missing date reads as `[]` |
| `Milestones.SameDayStableFirst` | src/routes/chromium.js:114-148 | a milestone whose stable and beta dates coincide yields one bucket `[stable, beta]` |
| `Milestones.Milestone100Example` | src/routes/chromium.js:111-151 | milestone 100 with stable 2022-03-01 and beta 2022-02-01 yields `{"2022-03-01": [100 stable "100.0.0.0"], "2022-02-01": [100 beta "100.0.0.0-beta"]}` |
| `Refresh.MaxOf` | src/routes/chromium.js:55 | `Math.max` of the parsed milestones: `-Infinity` iff the list is empty, `NaN` iff some entry is `NaN`, otherwise a listed value no smaller than any other |
| `Refresh.MilestoneRangeCoverage` | src/routes/chromium.js:59-65 | the milestones requested are exactly `80..latest+5`, strictly ascending, `latest+5-79` of them; none when `latest+5 < 80` or `latest` is `NaN`/`-Infinity` |
| `Refresh.Collected` | src/routes/chromium.js:65-86 | an entry is collected iff some requested milestone's call returned a non-empty list holding it; failed calls contribute nothing |
| `Refresh.CollectedInOrder` | src/routes/chromium.js:65-86 | entries are appended in request order, and a non-ok or throwing call neither contributes nor stops the calls after it |
| `Refresh.FetchMilestoneRange` | src/routes/chromium.js:59-86 | the `for` loop issues exactly the requests `80..latest+5` and collects exactly the entries `Collected` describes |
| `Refresh.FetchChromiumMilestones` | src/routes/chromium.js:21-108 | no upstream call is made iff `stat` and the read succeed and the age is below 86 400 000 ms, and then the cached contents are served. Otherwise the latest call comes first. Fresh data is served only when the latest call succeeds, every collected date is valid (otherwise `formatMilestoneData` throws) and the cache write succeeds. Every other outcome is the fallback |
| `Refresh.FreshnessBoundary` | src/routes/chromium.js:24-32 | a cache aged 86 399 999 ms is served with no upstream call; one aged exactly 86 400 000 ms is stale |
| `Refresh.RefreshRequests` | src/routes/chromium.js:45-86 | a refresh issues the latest call, then one call per milestone `80, 81, ...` in order, and nothing else; only the latest call if it fails |
| `Refresh.FreshDataServed` | src/routes/chromium.js:88-95 | when the latest call, the normalisation and the write succeed, the normalised form of the collected entries is served |
| `Refresh.FallbackLaw` | src/routes/chromium.js:89-107 | if the latest call fails, a collected date is invalid so `formatMilestoneData` throws, or the cache write fails, the cache's contents are served unchanged at any age, or `{}` when it cannot be read |
| `Refresh.WriteFailureDiscardsFreshData` | src/routes/chromium.js:89-107 | a failed `ensureCacheDir` or `writeFile` discards the freshly formatted data and serves the fallback |
| `Refresh.ExistingDirectoryTolerated` | src/routes/chromium.js:11-18 | an `EEXIST` error from `mkdir` behaves exactly like success; any other error code ends a refresh in the fallback |
| `Refresh.WarmCacheIsStable` | src/routes/chromium.js:21-95 | after a request that served the cache or stored fresh data, a request within the day makes no upstream call and serves the same data |
| `Refresh.EmptyRefreshOverwritesCache` | src/routes/chromium.js:63-95 | when the cache is stale and the latest call succeeds but every requested milestone contributes nothing, the empty index `{}` is written and served, even though the old cache is readable |
| `Refresh.EmptyRefreshExamples` | src/routes/chromium.js:55-95 | a stale readable cache with `mstones: [120]` and every per-milestone call failing, or with `mstones: []` (so `Math.max()` is `-Infinity` and no call is made), serves `{}` |
| `Refresh.Fallback` | src/routes/chromium.js:99-106 | the fallback serves the readable cache contents, else the empty object, and is never fresh data |
| `CivilCalendar.Weekday` | src/static/js/chromium.js:45-46 | `getDay` of a date is in `0..6`, with 1970-01-01 a Thursday (`CivilCalendar.Epoch`) |
| `CivilCalendar.NextMonthStart` | src/static/js/chromium.js:44-57 | the Gregorian day count agrees with the month lengths: the next month starts `DaysInMonth` days later, so its first weekday advances by that much modulo 7 |
| `CivilCalendar.Normalize` | src/static/js/chromium.js:55-57 | within the years the model covers, `new Date(y, m - 1, n)` gives a valid date denoting the same day as day `n` counted from the first of the month |
| `CivilCalendar.NormalizeKeepsMonth` | src/static/js/chromium.js:55-57 | for `1 <= n <= DaysInMonth + 28`, `new Date` keeps the month iff `n <= DaysInMonth`, and then the date is `(y, m, n)` itself |
| `Grid.MondayOffset` | src/static/js/chromium.js:46 | the offset is in `0..6`; Sunday (0) maps to 6, and column `c` shows weekday `(c + 1) % 7` |
| `Grid.FirstColumn` | src/static/js/chromium.js:44-46 | the column of the first of the month is in `0..6` and is the column of its weekday: `(offset + 1) % 7 == getDay()` of the first |
| `Grid.HeaderOfColumn` | src/static/js/chromium.js:16-46 | the header over the first day's column names that day's weekday |
| `Grid.DateKeyRoundTrip` | src/static/js/chromium.js:73 | the padded key of a date reads back as that date, and has length 10 for a four-digit year |
| `Grid.GenerateMonth` | src/static/js/chromium.js:48-53 | the grid has 6 rows of 7 cells |
| `Grid.CellNumbering` | src/static/js/chromium.js:48-57 | cell `(week, day)` holds `n = week*7 + day - offset + 1` and is valid iff `1 <= n <= daysInMonth(year, month)` |
| `Grid.CellOfDay` | src/static/js/chromium.js:48-54 | day `n` of the month lies within the 6x7 grid, at index `n - 1 + offset` |
| `Grid.EveryDayShown` | src/static/js/chromium.js:48-57 | every day of the month has a valid cell showing it |
| `Grid.ValidCellAtItsDay` | src/static/js/chromium.js:48-57 | a valid cell is a day of the month and sits at that day's position |
| `Grid.EveryDayExactlyOnce` | src/static/js/chromium.js:48-57 | each day of the month appears in exactly one valid cell |
| `Grid.CellUnderItsWeekday` | src/static/js/chromium.js:37-57 | every valid cell sits in the column whose header is its own weekday |
| `Grid.CellContents` | src/static/js/chromium.js:65-77 | a valid cell shows its day number and looks up its padded key; a missing key yields `[]`. A cell is marked iff it is valid and its list is non-empty. An invalid cell shows nothing and is never marked |
| `Grid.CellShowsItsDay` | src/static/js/chromium.js:72-77 | with normalised milestone data, a valid cell lists exactly the records dated on its key, in input order |
| `Grid.WrapMonth` | src/static/js/chromium.js:136-144 | after the two loops `1 <= month <= 12`, `year*12 + month` is unchanged, and the result is `year + (month-1) div 12`, `(month-1) mod 12 + 1` |
| `Grid.ShowCalendar` | src/static/js/chromium.js:129-151 | exactly 13 months are generated, for offsets 6 down to -6. Each is in `1..12` (so `months[month-1]` is in bounds) at absolute month `now + 6 - i`. Each is one month before the previous one, and the middle one is today's month |
| `Grid.ConsecutiveMonths` | src/static/js/chromium.js:132-144 | months at descending absolute month numbers are each the calendar month before the previous one |

Some members carry no contract of their own, because the lemmas above state what they compute:
- `Grid.MakeCell` is stated by `Grid.CellNumbering` and `Grid.CellContents`;
- `Grid.DateKey` by `Grid.DateKeyRoundTrip`;
- `Milestones.Lookup` by `Grid.CellContents` and `Milestones.FormatConcat`;
- `Refresh.IsFresh` by `Refresh.FetchChromiumMilestones` and `Refresh.FreshnessBoundary`;
- `Refresh.EnsureCacheDir` by `Refresh.ExistingDirectoryTolerated`;
- `Refresh.MilestoneRange` by `Refresh.MilestoneRangeCoverage`.

## Left out

- The release-list functions `getReleasesOrUpdate` and `getActiveReleasesOrUpdate` of `src/data`, served by `src/index.js`: a separate pipeline whose source is not part of this model.
- `Text.IntToString`: matches JavaScript's rendering only for magnitudes below 2^53; above that a Number loses precision, and from 10^21 it is written in exponent notation (`1e+21`), neither of which is modelled. Milestone numbers are far below this bound.
- `fetch`, request headers, `fs.stat`/`readFile`/`writeFile`/`mkdir`, `JSON.parse`/`stringify`: represented by their outcomes. A parsed cache file is taken to be a date index, and what is written reads back unchanged.
- A `writeFile` that fails part-way: the model assumes a failed write leaves the cache file as it was, so the fallback read sees the same contents as the freshness read.
- The 100 ms delay between milestone calls, logging, and everything asynchronous; concurrent requests are not modelled.
- `new Date(s).toISOString().split('T')[0]`: a parameter; time zones and ISO parsing are not modelled.
- `Milestones.Entry`: `mstone` is a natural number and date fields are strings; other JSON values in those fields are not modelled.
- `Refresh.MaxOf`: `parseInt` itself is not modelled; its result is given per entry, `None` for `NaN`, and is taken as an exact integer. Results of magnitude 2^53 or more, which JavaScript rounds, and `+Infinity`, which `parseInt` returns for a numeral of more than 308 digits, are not represented. For such a latest milestone the source's `for` loop never terminates, because `mstone++` stops changing the value at 2^53.
- `Refresh.MilestoneRangeCoverage`: "exactly `80..latest+5`" holds of the source only while `latest + 5 < 2^53`; from there on the source requests milestones without end, while the model's range is finite.
- `Refresh.FetchMilestoneRange`: the loop is proved to end after `80..latest+5` for every finite `latest`; the source's loop ends only when `latest + 5 < 2^53`, and a larger latest milestone makes the request hang.
- `CivilCalendar.Normalize`: local time, daylight-saving shifts and the mapping of years 0..99 to 1900..1999 in the `Date` constructor are not modelled; the day count is the proleptic Gregorian one. Nor is `Date`'s range of ±8.64e15 ms: years beyond about ±275,000 give an Invalid Date, which the model does not produce.
- `Grid.GenerateMonth`: requires `1 <= month <= 12`, which its only caller guarantees (proved by `Grid.WrapMonth`); other month values are not modelled.
- The DOM: element creation, CSS classes, tooltips, icon colours, the `data-month`/`data-date` attributes, `innerHTML`, and the `future` comparison with today.
- `main`'s own fetch of `/chromium/data.json` and its error message, the Express routes that render the page and serve `data.json`, and all of `src/index.js`.

=== FILE: civil.dfy ===
/** The part of JavaScript's `Date` the calendar page relies on, over the
    proleptic Gregorian calendar: days since 1970-01-01, the weekday
    (`getDay`, 0 = Sunday), and how `new Date(year, month - 1, n)` carries an
    out-of-range day into a neighbouring month. Months are numbered 1..12. */
module CivilCalendar {

  datatype CivilDate = CivilDate(year: int, month: int, day: int)

  predicate IsLeapYear(y: int) {
    y % 4 == 0 && (y % 100 != 0 || y % 400 == 0)
  }

  function DaysInMonth(y: int, m: int): (d: int)
    requires 1 <= m <= 12
    ensures 28 <= d <= 31
    ensures m == 2 ==> (d == 29 <==> IsLeapYear(y))
  {
    if m == 2 then (if IsLeapYear(y) then 29 else 28)
    else if m == 4 || m == 6 || m == 9 || m == 11 then 30
    else 31
  }

  predicate IsValid(date: CivilDate) {
    1 <= date.month <= 12 && 1 <= date.day <= DaysInMonth(date.year, date.month)
  }

  function NextMonth(y: int, m: int): (r: (int, int))
    requires 1 <= m <= 12
    ensures 1 <= r.1 <= 12
  {
    if m == 12 then (y + 1, 1) else (y, m + 1)
  }

  function PrevMonth(y: int, m: int): (r: (int, int))
    requires 1 <= m <= 12
    ensures 1 <= r.1 <= 12
    ensures NextMonth(r.0, r.1) == (y, m)
  {
    if m == 1 then (y - 1, 12) else (y, m - 1)
  }

  /** Days from 1 March to the first of month `m`, in a year that starts in March. */
  function DaysBeforeMonthFromMarch(m: int): int
    requires 1 <= m <= 12
  {
    [306, 337, 0, 31, 61, 92, 122, 153, 184, 214, 245, 275][m - 1]
  }

  /** Days from 1970-01-01 to 1 March of year `y`: 146097 days per 400-year era,
      365 per year plus one every fourth year but not every hundredth. */
  function MarchFirst(y: int): int {
    var era := y / 400;
    var yoe := y % 400;
    era * 146097 + yoe * 365 + yoe / 4 - yoe / 100 - 719468
  }

  /** Days from 1970-01-01 to the given date. January and February count in the
      March-based year that began the previous calendar year. Any integer day
      is accepted; day `n` lies `n - 1` days after the first of the month. */
  function DaysFromCivil(y: int, m: int, d: int): int
    requires 1 <= m <= 12
  {
    MarchFirst(if m <= 2 then y - 1 else y) + DaysBeforeMonthFromMarch(m) + d - 1
  }

  /** `getDay()`: 0 is Sunday, 1 is Monday, ..., 6 is Saturday. */
  function Weekday(y: int, m: int, d: int): (w: int)
    requires 1 <= m <= 12
    ensures 0 <= w < 7
  {
    (DaysFromCivil(y, m, d) + 4) % 7
  }

  /** Day 0 is 1970-01-01, a Thursday. */
  lemma Epoch()
    ensures DaysFromCivil(1970, 1, 1) == 0
    ensures Weekday(1970, 1, 1) == 4
  {
  }

  lemma DivUniqueFourHundred(a: int, q: int, r: int)
    requires a == q * 400 + r && 0 <= r < 400
    ensures a / 400 == q && a % 400 == r
  {
  }

  /** Leap years repeat every 400 years, so only the year of the era matters. */
  lemma LeapInEra(y: int)
    ensures IsLeapYear(y) <==> IsLeapYear(y % 400)
  {
    var q, o := y / 400, y % 400;
    DivUniqueFourHundred(o, 0, o);
    assert y == (q * 100 + o / 4) * 4 + o % 4;
    DivUniqueFour(y, q * 100 + o / 4, o % 4);
    assert y == (q * 4 + o / 100) * 100 + o % 100;
    DivUniqueHundred(y, q * 4 + o / 100, o % 100);
  }

  lemma DivUniqueFour(a: int, q: int, r: int)
    requires a == q * 4 + r && 0 <= r < 4
    ensures a / 4 == q && a % 4 == r
  {
  }

  lemma DivUniqueHundred(a: int, q: int, r: int)
    requires a == q * 100 + r && 0 <= r < 100
    ensures a / 100 == q && a % 100 == r
  {
  }

  /** Inside one 400-year era, the day offsets of consecutive years differ by
      366 exactly before a leap year. */
  lemma EraYearLength(o: int)
    requires 1 <= o < 400
    ensures (o * 365 + o / 4 - o / 100) - ((o - 1) * 365 + (o - 1) / 4 - (o - 1) / 100)
         == if IsLeapYear(o) then 366 else 365
  {
    StepFour(o);
    StepHundred(o);
  }

  /** Going from `a - 1` to `a` adds one to `a / 4` exactly when `4` divides `a`. */
  lemma StepFour(a: int)
    ensures a / 4 - (a - 1) / 4 == if a % 4 == 0 then 1 else 0
  {
    var q, r := (a - 1) / 4, (a - 1) % 4;
    if r == 3 {
      assert a == (q + 1) * 4;
    } else {
      assert a == q * 4 + (r + 1);
    }
  }

  /** Going from `a - 1` to `a` adds one to `a / 100` exactly when `100` divides `a`. */
  lemma StepHundred(a: int)
    ensures a / 100 - (a - 1) / 100 == if a % 100 == 0 then 1 else 0
  {
    var q, r := (a - 1) / 100, (a - 1) % 100;
    if r == 99 {
      assert a == (q + 1) * 100;
    } else {
      assert a == q * 100 + (r + 1);
    }
  }

  /** A March-based year lasts 366 days exactly when the February it ends with
      is a leap February. */
  lemma MarchYearLength(y: int)
    ensures MarchFirst(y) - MarchFirst(y - 1) == if IsLeapYear(y) then 366 else 365
  {
    var q, o := y / 400, y % 400;
    LeapInEra(y);
    if o == 0 {
      DivUniqueFourHundred(y - 1, q - 1, 399);
    } else {
      DivUniqueFourHundred(y - 1, q, o - 1);
      EraYearLength(o);
    }
  }

  /** Month lengths from March to January agree with the day offsets table. */
  lemma MonthTable(m: int)
    requires 3 <= m <= 12 || m == 1
    ensures DaysBeforeMonthFromMarch(if m == 12 then 1 else m + 1) - DaysBeforeMonthFromMarch(m) == DaysInMonth(0, m)
  {
  }

  /** The day count agrees with the month lengths: the next month starts
      `DaysInMonth` days after this one, so weekdays advance by that many. */
  lemma NextMonthStart(y: int, m: int)
    requires 1 <= m <= 12
    ensures DaysFromCivil(NextMonth(y, m).0, NextMonth(y, m).1, 1) == DaysFromCivil(y, m, 1) + DaysInMonth(y, m)
    ensures Weekday(NextMonth(y, m).0, NextMonth(y, m).1, 1) == (Weekday(y, m, 1) + DaysInMonth(y, m)) % 7
  {
    NextMonthDays(y, m);
    WeekdayAdvance(DaysFromCivil(y, m, 1), DaysInMonth(y, m));
  }

  lemma NextMonthDays(y: int, m: int)
    requires 1 <= m <= 12
    ensures DaysFromCivil(NextMonth(y, m).0, NextMonth(y, m).1, 1) == DaysFromCivil(y, m, 1) + DaysInMonth(y, m)
  {
    if m == 2 {
      MarchYearLength(y);
      assert DaysFromCivil(y, 3, 1) == MarchFirst(y);
      assert DaysFromCivil(y, 2, 1) == MarchFirst(y - 1) + 337;
    } else if m == 12 {
      MonthTable(12);
      assert DaysFromCivil(y + 1, 1, 1) == MarchFirst(y) + 306;
      assert DaysFromCivil(y, 12, 1) == MarchFirst(y) + 275;
    } else {
      MonthTable(m);
      var base := MarchFirst(if m <= 2 then y - 1 else y);
      assert DaysFromCivil(y, m, 1) == base + DaysBeforeMonthFromMarch(m);
      assert DaysFromCivil(y, m + 1, 1) == base + DaysBeforeMonthFromMarch(m + 1);
    }
  }

  lemma WeekdayAdvance(day: int, k: int)
    ensures (day + k + 4) % 7 == ((day + 4) % 7 + k) % 7
  {
    var q := (day + 4) / 7;
    assert day + k + 4 == q * 7 + ((day + 4) % 7 + k);
  }

  /** `new Date(y, m - 1, n)`: a day outside the month is carried into the
      months before or after it. The result is a valid date denoting the same
      day. */
  function Normalize(y: int, m: int, n: int): (r: CivilDate)
    requires 1 <= m <= 12
    ensures IsValid(r)
    ensures DaysFromCivil(r.year, r.month, r.day) == DaysFromCivil(y, m, n)
    decreases if n < 1 then 1 else 0, if n < 1 then -n else n
  {
    if n < 1 then
      var prev := PrevMonth(y, m);
      NextMonthStart(prev.0, prev.1);
      Normalize(prev.0, prev.1, n + DaysInMonth(prev.0, prev.1))
    else if n > DaysInMonth(y, m) then
      var next := NextMonth(y, m);
      NextMonthStart(y, m);
      Normalize(next.0, next.1, n - DaysInMonth(y, m))
    else
      CivilDate(y, m, n)
  }

  /** Up to four weeks past the end of a month, `new Date` lands in the next
      month; so the month is kept exactly for the days `1..DaysInMonth`. */
  lemma NormalizeKeepsMonth(y: int, m: int, n: int)
    requires 1 <= m <= 12
    requires 1 <= n <= DaysInMonth(y, m) + 28
    ensures Normalize(y, m, n).month == m <==> n <= DaysInMonth(y, m)
    ensures n <= DaysInMonth(y, m) ==> Normalize(y, m, n) == CivilDate(y, m, n)
  {
    if n > DaysInMonth(y, m) {
      var next := NextMonth(y, m);
      assert Normalize(y, m, n) == Normalize(next.0, next.1, n - DaysInMonth(y, m));
      assert Normalize(next.0, next.1, n - DaysInMonth(y, m)) == CivilDate(next.0, next.1, n - DaysInMonth(y, m));
    }
  }
}

=== FILE: grid.dfy ===
/** The calendar page's arithmetic (`generateMonth` and the month loop of
    `main`): a Monday-first grid of six weeks per month, the `YYYY-MM-DD` key
    each valid day looks up, and the thirteen months shown around today. */
module Grid {
  import opened Options
  import opened Text
  import opened Milestones
  import opened CivilCalendar

  const MonthNames: seq<string> := [
    "January", "February", "March", "April", "May", "June",
    "July", "August", "September", "October", "November", "December"
  ]

  /** The column headers, Monday first. */
  const DayNames: seq<string> := ["Mon", "Tue", "Wed", "Thu", "Fri", "Sat", "Sun"]

  const WeeksShown: int := 6

  /** Months shown before and after the current one. */
  const MonthsAround: int := 6

  // ---------------------------------------------------------------------------
  // Columns
  // ---------------------------------------------------------------------------

  /** The column of a weekday in a Monday-first week: Sunday (`getDay() == 0`)
      is the last column, every other day moves one column left. Column `c`
      carries the header `DayNames[c]`, the weekday `(c + 1) % 7`. */
  function MondayOffset(weekday: int): (column: int)
    requires 0 <= weekday < 7
    ensures 0 <= column < 7
    ensures (column + 1) % 7 == weekday
  {
    if weekday == 0 then 6 else weekday - 1
  }

  /** Every column header names the weekday its column is assigned. */
  lemma HeaderOfColumn(weekday: int)
    requires 0 <= weekday < 7
    ensures DayNames[MondayOffset(weekday)] == ["Sun", "Mon", "Tue", "Wed", "Thu", "Fri", "Sat"][weekday]
  {
  }

  // ---------------------------------------------------------------------------
  // Date keys
  // ---------------------------------------------------------------------------

  /** `x < 10 ? `0${x}` : x`. */
  function Pad2(x: int): string {
    if x < 10 then "0" + IntToString(x) else IntToString(x)
  }

  /** The lookup key of a day: year, then month and day padded to two digits. */
  function DateKey(y: int, m: int, d: int): string {
    IntToString(y) + "-" + Pad2(m) + "-" + Pad2(d)
  }

  /** Reads a `Y-MM-DD` key with a non-negative year. */
  function ParseDateKey(s: string): Option<CivilDate> {
    if |s| < 7 || s[|s| - 3] != '-' || s[|s| - 6] != '-' then None
    else
      match (ParseNat(s[..|s| - 6]), ParseNat(s[|s| - 5..|s| - 3]), ParseNat(s[|s| - 2..]))
      case (Some(y), Some(m), Some(d)) => Some(CivilDate(y, m, d))
      case _ => None
  }

  lemma Pad2Digits(x: int)
    requires 1 <= x <= 99
    ensures |Pad2(x)| == 2
    ensures ParseNat(Pad2(x)) == Some(x)
  {
    NatToStringWidth(x);
    ParseNatToString(x);
    if x < 10 {
      var p := Pad2(x);
      assert p[..1] == "0";
      assert DigitsValue(p[..1]) == 0;
    }
  }

  /** The key of a date of a non-negative year reads back as that date; with a
      four-digit year it is exactly ten characters long. */
  lemma DateKeyRoundTrip(y: int, m: int, d: int)
    requires 0 <= y && 1 <= m <= 12 && 1 <= d <= 31
    ensures ParseDateKey(DateKey(y, m, d)) == Some(CivilDate(y, m, d))
    ensures 1000 <= y <= 9999 ==> |DateKey(y, m, d)| == 10
  {
    var key := DateKey(y, m, d);
    var year, month, day := IntToString(y), Pad2(m), Pad2(d);
    Pad2Digits(m);
    Pad2Digits(d);
    assert key == year + "-" + month + "-" + day;
    assert |key| == |year| + 6;
    assert key[|key| - 3] == '-' && key[|key| - 6] == '-';
    assert key[..|key| - 6] == year;
    assert key[|key| - 5..|key| - 3] == month;
    assert key[|key| - 2..] == day;
    ParseNatToString(y);
    assert ParseNat(year) == Some(y);
    if 1000 <= y <= 9999 {
      NatToStringWidth(y);
    }
  }

  // ---------------------------------------------------------------------------
  // One month
  // ---------------------------------------------------------------------------

  /** One grid cell: its day number `n`, whether it is a day of the month, the
      text shown, the key looked up, the records found and whether the cell is
      marked as carrying milestones. */
  datatype Cell = Cell(n: int, valid: bool, text: string, key: Option<string>, records: seq<Record>, marked: bool)

  datatype MonthView = MonthView(title: string, weeks: seq<seq<Cell>>)

  /** The column of the first of the month: the one headed by its weekday. */
  function FirstColumn(y: int, m: int): (offset: int)
    requires 1 <= m <= 12
    ensures 0 <= offset < 7
    ensures (offset + 1) % 7 == Weekday(y, m, 1)
  {
    MondayOffset(Weekday(y, m, 1))
  }

  /** The cell in row `week`, column `day`. Its day number counts from the
      first of the month, placed at `offset`. A cell is valid when that day is
      positive and `new Date` keeps it in this month; only a valid cell looks
      its key up, and it is marked when the lookup is non-empty. */
  function MakeCell(y: int, m: int, offset: int, week: int, day: int, data: DateIndex): Cell
    requires 1 <= m <= 12
  {
    var n := week * 7 + day - offset + 1;
    var valid := n > 0 && Normalize(y, m, n).month == m;
    if valid then
      var key := DateKey(y, m, n);
      var records := Lookup(data, key);
      Cell(n, true, IntToString(n), Some(key), records, |records| > 0)
    else
      Cell(n, false, "", None, [], false)
  }

  /** `generateMonth`: a titled grid of six weeks of seven days. */
  function GenerateMonth(y: int, m: int, data: DateIndex): (v: MonthView)
    requires 1 <= m <= 12
    ensures |v.weeks| == WeeksShown
    ensures forall w :: 0 <= w < WeeksShown ==> |v.weeks[w]| == 7
  {
    var offset := FirstColumn(y, m);
    MonthView(
      MonthNames[m - 1] + " " + IntToString(y),
      seq(WeeksShown, w => seq(7, d => MakeCell(y, m, offset, w, d, data))))
  }

  /** One cell of the generated grid, without unfolding the others. */
  lemma GridCell(y: int, m: int, data: DateIndex, w: int, d: int)
    requires 1 <= m <= 12
    requires 0 <= w < WeeksShown && 0 <= d < 7
    ensures GenerateMonth(y, m, data).weeks[w][d] == MakeCell(y, m, FirstColumn(y, m), w, d, data)
  {
  }

  /** Cell `(w, d)` holds day `w * 7 + d - offset + 1`, and it is valid exactly
      when that day lies in `1..DaysInMonth`. */
  lemma CellNumbering(y: int, m: int, data: DateIndex, w: int, d: int)
    requires 1 <= m <= 12
    requires 0 <= w < WeeksShown && 0 <= d < 7
    ensures var c := GenerateMonth(y, m, data).weeks[w][d];
      && c.n == w * 7 + d - FirstColumn(y, m) + 1
      && (c.valid <==> 1 <= c.n <= DaysInMonth(y, m))
  {
    GridCell(y, m, data, w, d);
    var n := w * 7 + d - FirstColumn(y, m) + 1;
    if 1 <= n {
      NormalizeKeepsMonth(y, m, n);
    }
  }

  /** The row and column where day `n` of the month is drawn. */
  function CellOfDay(y: int, m: int, n: int): (pos: (int, int))
    requires 1 <= m <= 12
    requires 1 <= n <= DaysInMonth(y, m)
    ensures 0 <= pos.0 < WeeksShown && 0 <= pos.1 < 7
    ensures pos.0 * 7 + pos.1 == n - 1 + FirstColumn(y, m)
  {
    var i := n - 1 + FirstColumn(y, m);
    (i / 7, i % 7)
  }

  /** Every day of the month has a valid cell, at `CellOfDay`: the grid is
      large enough since `offset + 31 <= 42`. */
  lemma EveryDayShown(y: int, m: int, data: DateIndex, n: int)
    requires 1 <= m <= 12
    requires 1 <= n <= DaysInMonth(y, m)
    ensures var pos := CellOfDay(y, m, n);
      var c := GenerateMonth(y, m, data).weeks[pos.0][pos.1];
      c.valid && c.n == n
  {
    var pos := CellOfDay(y, m, n);
    CellNumbering(y, m, data, pos.0, pos.1);
  }

  /** A valid cell sits at the position of its own day, so no day of the month
      appears in two cells. */
  lemma ValidCellAtItsDay(y: int, m: int, data: DateIndex, w: int, d: int)
    requires 1 <= m <= 12
    requires 0 <= w < WeeksShown && 0 <= d < 7
    ensures var c := GenerateMonth(y, m, data).weeks[w][d];
      c.valid ==> 1 <= c.n <= DaysInMonth(y, m) && CellOfDay(y, m, c.n) == (w, d)
  {
    var c := GenerateMonth(y, m, data).weeks[w][d];
    var n := w * 7 + d - FirstColumn(y, m) + 1;
    CellNumbering(y, m, data, w, d);
    assert c.n == n;
    if 1 <= n <= DaysInMonth(y, m) {
      DayAtPosition(y, m, w, d);
      assert CellOfDay(y, m, n) == (w, d);
    }
  }

  /** Every day of the month appears in exactly one valid cell. */
  lemma EveryDayExactlyOnce(y: int, m: int, data: DateIndex, n: int)
    requires 1 <= m <= 12
    requires 1 <= n <= DaysInMonth(y, m)
    ensures var weeks := GenerateMonth(y, m, data).weeks;
      forall w, d :: 0 <= w < WeeksShown && 0 <= d < 7 ==>
        (weeks[w][d].valid && weeks[w][d].n == n <==> (w, d) == CellOfDay(y, m, n))
  {
    var weeks: seq<seq<Cell>> := GenerateMonth(y, m, data).weeks;
    EveryDayShown(y, m, data, n);
    forall w, d | 0 <= w < WeeksShown && 0 <= d < 7
      ensures weeks[w][d].valid && weeks[w][d].n == n <==> (w, d) == CellOfDay(y, m, n)
    {
      ValidCellAtItsDay(y, m, data, w, d);
    }
  }

  /** The day drawn at `(w, d)`, when it is a day of the month, is placed
      back at `(w, d)` by `CellOfDay`. */
  lemma DayAtPosition(y: int, m: int, w: int, d: int)
    requires 1 <= m <= 12
    requires 0 <= w && 0 <= d < 7
    requires 1 <= w * 7 + d - FirstColumn(y, m) + 1 <= DaysInMonth(y, m)
    ensures CellOfDay(y, m, w * 7 + d - FirstColumn(y, m) + 1) == (w, d)
  {
    DivUniqueSeven(w * 7 + d, w, d);
  }

  lemma DivUniqueSeven(a: int, q: int, r: int)
    requires a == q * 7 + r && 0 <= r < 7
    ensures a / 7 == q && a % 7 == r
  {
  }

  lemma SameResidue(a: int, b: int)
    requires a % 7 == b % 7
    ensures (a - b) % 7 == 0
  {
    var qa, qb := a / 7, b / 7;
    assert a - b == (qa - qb) * 7;
  }

  /** Each valid cell sits under the header of its own weekday: column `d` is
      headed `DayNames[d]`, the weekday `(d + 1) % 7`. */
  lemma CellUnderItsWeekday(y: int, m: int, data: DateIndex, w: int, d: int)
    requires 1 <= m <= 12
    requires 0 <= w < WeeksShown && 0 <= d < 7
    ensures var c := GenerateMonth(y, m, data).weeks[w][d];
      c.valid ==> Weekday(y, m, c.n) == (d + 1) % 7
  {
    CellNumbering(y, m, data, w, d);
    WeekdayAtPosition(y, m, w, d);
  }

  /** The day numbered for position `(w, d)` falls on weekday `(d + 1) % 7`. */
  lemma WeekdayAtPosition(y: int, m: int, w: int, d: int)
    requires 1 <= m <= 12
    ensures Weekday(y, m, w * 7 + d - FirstColumn(y, m) + 1) == (d + 1) % 7
  {
    var offset := FirstColumn(y, m);
    var first := DaysFromCivil(y, m, 1);
    assert (offset + 1) % 7 == (first + 4) % 7;
    SameResidue(first + 4, offset + 1);
    assert DaysFromCivil(y, m, w * 7 + d - offset + 1) + 4 == (first + 4 - offset - 1) + 7 * w + (d + 1);
    ModShift(first + 4 - offset - 1, w, d + 1);
  }

  lemma ModShift(base: int, w: int, k: int)
    requires base % 7 == 0
    ensures (base + 7 * w + k) % 7 == k % 7
  {
    var q := base / 7;
    assert base + 7 * w + k == 7 * (q + w) + k;
  }

  /** What a cell shows: a valid cell looks up its padded key and is marked
      exactly when the lookup is non-empty; a missing key yields no records; an
      invalid cell has no label, no key and is never marked. */
  lemma CellContents(y: int, m: int, data: DateIndex, w: int, d: int)
    requires 1 <= m <= 12
    requires 0 <= w < WeeksShown && 0 <= d < 7
    ensures var c := GenerateMonth(y, m, data).weeks[w][d];
      && (c.valid ==> c.key == Some(DateKey(y, m, c.n)) && c.text == IntToString(c.n))
      && (c.valid ==> (c.key.value in data ==> c.records == data[c.key.value])
                      && (c.key.value !in data ==> c.records == []))
      && (c.marked <==> c.valid && c.key.value in data && |data[c.key.value]| > 0)
      && (!c.valid ==> c.key == None && c.text == "" && c.records == [])
  {
    GridCell(y, m, data, w, d);
    var offset := FirstColumn(y, m);
    var n := w * 7 + d - offset + 1;
    var c := MakeCell(y, m, offset, w, d, data);
    if n > 0 && Normalize(y, m, n).month == m {
      var key := DateKey(y, m, n);
      assert c == Cell(n, true, IntToString(n), Some(key), Lookup(data, key), |Lookup(data, key)| > 0);
    } else {
      assert c == Cell(n, false, "", None, [], false);
    }
  }

  /** The records shown in a cell are exactly the normalised records dated on
      that cell's day. */
  lemma CellShowsItsDay(ms: seq<Entry>, dateOf: DateOf, y: int, m: int, w: int, d: int)
    requires AllParse(ms, dateOf)
    requires 1 <= m <= 12
    requires 0 <= w < WeeksShown && 0 <= d < 7
    ensures var c := GenerateMonth(y, m, FormatMilestoneData(ms, dateOf).value).weeks[w][d];
      c.valid ==> c.records == Bucket(Emitted(ms, dateOf), DateKey(y, m, c.n))
  {
    var idx := FormatMilestoneData(ms, dateOf).value;
    var c := GenerateMonth(y, m, idx).weeks[w][d];
    CellContents(y, m, idx, w, d);
    if c.valid {
      var key := DateKey(y, m, c.n);
      assert c.records == Lookup(idx, key);
      LookupIsBucket(idx, Emitted(ms, dateOf), key);
    }
  }

  // ---------------------------------------------------------------------------
  // The months shown
  // ---------------------------------------------------------------------------

  /** The two `while` loops of `main` that bring a month number into `1..12`,
      carrying whole years; the absolute month `year * 12 + month` is kept. */
  method WrapMonth(year: int, month: int) returns (y: int, m: int)
    ensures 1 <= m <= 12
    ensures y * 12 + m == year * 12 + month
    ensures y == year + (month - 1) / 12 && m == (month - 1) % 12 + 1
  {
    y, m := year, month;
    while m > 12
      invariant y * 12 + m == year * 12 + month
      decreases m
    {
      m := m - 12;
      y := y + 1;
    }
    while m < 1
      invariant y * 12 + m == year * 12 + month
      invariant m <= 12
      decreases -m
    {
      m := m + 12;
      y := y - 1;
    }
    DivUniqueTwelve(month - 1, y - year, m - 1);
  }

  lemma DivUniqueTwelve(a: int, q: int, r: int)
    requires a == q * 12 + r && 0 <= r < 12
    ensures a / 12 == q && a % 12 == r
  {
  }

  /** `main`: for offsets 6 down to -6 around today's month (`getMonth()` is
      `nowMonth0`, 0-based), the wrapped year and month and the generated grid.
      Thirteen months, from six ahead to six back, each one calendar month
      before the previous one. A month's grid depends on that month alone, so
      the grids are built from the list of months in the same order. */
  method ShowCalendar(nowYear: int, nowMonth0: int, data: DateIndex)
    returns (shown: seq<(int, int)>, views: seq<MonthView>)
    requires 0 <= nowMonth0 <= 11
    ensures |shown| == 2 * MonthsAround + 1 && |views| == |shown|
    ensures forall i :: 0 <= i < |shown| ==>
      && 1 <= shown[i].1 <= 12
      && shown[i].0 * 12 + shown[i].1 == nowYear * 12 + nowMonth0 + 1 + MonthsAround - i
    ensures forall i :: 0 <= i < |shown| ==> views[i] == GenerateMonth(shown[i].0, shown[i].1, data)
    ensures shown[MonthsAround] == (nowYear, nowMonth0 + 1)
    ensures forall i :: 0 <= i < |shown| - 1 ==> shown[i + 1] == PrevMonth(shown[i].0, shown[i].1)
  {
    shown := [];
    var monthOffset := MonthsAround;
    while monthOffset >= -MonthsAround
      invariant -MonthsAround - 1 <= monthOffset <= MonthsAround
      invariant |shown| == MonthsAround - monthOffset
      invariant forall i :: 0 <= i < |shown| ==>
        && 1 <= shown[i].1 <= 12
        && shown[i].0 * 12 + shown[i].1 == nowYear * 12 + nowMonth0 + 1 + MonthsAround - i
    {
      var y, m := WrapMonth(nowYear, nowMonth0 + 1 + monthOffset);
      assert y * 12 + m == nowYear * 12 + nowMonth0 + 1 + MonthsAround - |shown|;
      shown := shown + [(y, m)];
      monthOffset := monthOffset - 1;
    }
    views := seq(|shown|, i requires 0 <= i < |shown| => GenerateMonth(shown[i].0, shown[i].1, data));
    ConsecutiveMonths(shown, nowYear * 12 + nowMonth0 + 1 + MonthsAround);
    AbsoluteMonthUnique(shown[MonthsAround].0, shown[MonthsAround].1, nowYear, nowMonth0 + 1);
  }

  /** Months listed at descending absolute month numbers are each one calendar
      month before the previous one. */
  lemma ConsecutiveMonths(shown: seq<(int, int)>, top: int)
    requires forall i :: 0 <= i < |shown| ==> 1 <= shown[i].1 <= 12 && shown[i].0 * 12 + shown[i].1 == top - i
    ensures forall i :: 0 <= i < |shown| - 1 ==> shown[i + 1] == PrevMonth(shown[i].0, shown[i].1)
  {
    forall i | 0 <= i < |shown| - 1
      ensures shown[i + 1] == PrevMonth(shown[i].0, shown[i].1)
    {
      OneMonthBack(shown[i].0, shown[i].1, shown[i + 1].0, shown[i + 1].1);
    }
  }

  lemma AbsoluteMonthUnique(y1: int, m1: int, y2: int, m2: int)
    requires 1 <= m1 <= 12 && 1 <= m2 <= 12
    requires y1 * 12 + m1 == y2 * 12 + m2
    ensures y1 == y2 && m1 == m2
  {
  }

  lemma OneMonthBack(y1: int, m1: int, y2: int, m2: int)
    requires 1 <= m1 <= 12 && 1 <= m2 <= 12
    ensures y2 * 12 + m2 == y1 * 12 + m1 - 1 ==> (y2, m2) == PrevMonth(y1, m1)
  {
  }
}

=== FILE: milestones.dfy ===
/** The milestone normaliser of the Chromium route (`formatMilestoneData`): raw
    upstream milestone entries become a date-indexed map of calendar records. */
module Milestones {
  import opened Options
  import opened Text

  /** One upstream milestone entry, reduced to the fields the normaliser reads.
      A date field is `None` when the upstream object does not carry it. */
  datatype Entry = Entry(mstone: nat, stableDate: Option<string>, earliestBeta: Option<string>)

  datatype Channel = Stable | Beta

  /** One calendar record, as pushed into a date bucket. */
  datatype Record = Record(mstone: nat, channel: Channel, version: string, date: string)

  /** Calendar date (`YYYY-MM-DD`) to the records scheduled on it. */
  type DateIndex = map<string, seq<Record>>

  /** The calendar date of an upstream date string, i.e. the part of its ISO
      rendering before the `T`; `None` when the string is not a valid date, where
      the source's `toISOString` throws. */
  type DateOf = string -> Option<string>

  /** A date field counts when it is present and truthy (a non-empty string). */
  predicate Present(field: Option<string>) {
    field.Some? && field.value != ""
  }

  /** The bucket stored under `key`, or the empty list when the key is missing
      (`data[key] || []`). */
  function Lookup(idx: DateIndex, key: string): seq<Record> {
    if key in idx then idx[key] else []
  }

  // ---------------------------------------------------------------------------
  // Versions
  // ---------------------------------------------------------------------------

  function Suffix(channel: Channel): string {
    match channel
    case Stable => ".0.0.0"
    case Beta => ".0.0.0-beta"
  }

  /** The synthesised version string: `{mstone}.0.0.0`, with `-beta` for beta. */
  function Version(mstone: nat, channel: Channel): string {
    NatToString(mstone) + Suffix(channel)
  }

  /** Recovers milestone and channel from a synthesised version string. */
  function ParseVersion(v: string): Option<(nat, Channel)> {
    var beta := Suffix(Beta);
    var stable := Suffix(Stable);
    if |v| >= |beta| && v[|v| - |beta|..] == beta then
      match ParseNat(v[..|v| - |beta|])
      case Some(n) => Some((n, Beta))
      case None => None
    else if |v| >= |stable| && v[|v| - |stable|..] == stable then
      match ParseNat(v[..|v| - |stable|])
      case Some(n) => Some((n, Stable))
      case None => None
    else
      None
  }

  /** Distinct (milestone, channel) pairs never share a version string. */
  lemma VersionRoundTrip(mstone: nat, channel: Channel)
    ensures ParseVersion(Version(mstone, channel)) == Some((mstone, channel))
  {
    var digits := NatToString(mstone);
    var v := Version(mstone, channel);
    ParseNatToString(mstone);
    match channel {
      case Beta =>
        assert v[..|v| - |Suffix(Beta)|] == digits;
      case Stable =>
        // a stable version ends in the digit '0', never in "beta"
        assert v[|v| - 1] == '0';
        assert v[..|v| - |Suffix(Stable)|] == digits;
    }
  }

  // ---------------------------------------------------------------------------
  // Reference definition: the flat list of records, in input order
  // ---------------------------------------------------------------------------

  predicate FieldParses(field: Option<string>, dateOf: DateOf) {
    Present(field) ==> dateOf(field.value).Some?
  }

  predicate EntryParses(e: Entry, dateOf: DateOf) {
    FieldParses(e.stableDate, dateOf) && FieldParses(e.earliestBeta, dateOf)
  }

  predicate AllParse(ms: seq<Entry>, dateOf: DateOf) {
    forall i :: 0 <= i < |ms| ==> EntryParses(ms[i], dateOf)
  }

  /** The record one present date field contributes. */
  function FieldRecords(e: Entry, channel: Channel, field: Option<string>, dateOf: DateOf): seq<Record>
    requires FieldParses(field, dateOf)
  {
    if Present(field) then [Record(e.mstone, channel, Version(e.mstone, channel), dateOf(field.value).value)]
    else []
  }

  /** The records of one entry: its stable record, then its beta record. */
  function EntryRecords(e: Entry, dateOf: DateOf): seq<Record>
    requires EntryParses(e, dateOf)
  {
    FieldRecords(e, Stable, e.stableDate, dateOf) + FieldRecords(e, Beta, e.earliestBeta, dateOf)
  }

  /** Every record the input yields, entry by entry in input order. */
  function Emitted(ms: seq<Entry>, dateOf: DateOf): seq<Record>
    requires AllParse(ms, dateOf)
  {
    if |ms| == 0 then [] else Emitted(ms[..|ms| - 1], dateOf) + EntryRecords(ms[|ms| - 1], dateOf)
  }

  /** How many records an entry should yield: one per present date field. */
  function Contribution(e: Entry): nat {
    (if Present(e.stableDate) then 1 else 0) + (if Present(e.earliestBeta) then 1 else 0)
  }

  function SumContributions(ms: seq<Entry>): nat {
    if |ms| == 0 then 0 else SumContributions(ms[..|ms| - 1]) + Contribution(ms[|ms| - 1])
  }

  /** The records of `rs` dated `key`, in their order in `rs`. */
  function Bucket(rs: seq<Record>, key: string): (b: seq<Record>)
    ensures |b| <= |rs|
    ensures forall j :: 0 <= j < |b| ==> b[j].date == key
  {
    if |rs| == 0 then []
    else Bucket(rs[..|rs| - 1], key) + (if rs[|rs| - 1].date == key then [rs[|rs| - 1]] else [])
  }

  function DatesOf(rs: seq<Record>): set<string> {
    set i | 0 <= i < |rs| :: rs[i].date
  }

  /** `idx` groups exactly the records `rs` by date, preserving their order. */
  ghost predicate Indexes(idx: DateIndex, rs: seq<Record>) {
    && idx.Keys == DatesOf(rs)
    && forall k :: k in idx ==> idx[k] == Bucket(rs, k)
  }

  // ---------------------------------------------------------------------------
  // The normaliser as written: push record by record into date buckets
  // ---------------------------------------------------------------------------

  /** Appends a record to the bucket of its date, creating the bucket if needed. */
  function Push(idx: DateIndex, r: Record): DateIndex {
    idx[r.date := Lookup(idx, r.date) + [r]]
  }

  /** Processes one date field; `None` when its date is invalid. */
  function PushField(idx: DateIndex, e: Entry, channel: Channel, field: Option<string>, dateOf: DateOf): Option<DateIndex> {
    if !Present(field) then Some(idx)
    else
      match dateOf(field.value)
      case None => None
      case Some(d) => Some(Push(idx, Record(e.mstone, channel, Version(e.mstone, channel), d)))
  }

  /** Processes one entry: the stable date first, then the beta date. */
  function PushEntry(idx: DateIndex, e: Entry, dateOf: DateOf): Option<DateIndex> {
    match PushField(idx, e, Stable, e.stableDate, dateOf)
    case None => None
    case Some(afterStable) => PushField(afterStable, e, Beta, e.earliestBeta, dateOf)
  }

  /** `formatMilestoneData`: folds the entries, in order, into a date index. The
      result is `None` when some present date is invalid, i.e. when the source
      throws out of the function. Otherwise it groups exactly the reference
      records by date, in input order, without deduplication. */
  function FormatMilestoneData(ms: seq<Entry>, dateOf: DateOf): (r: Option<DateIndex>)
    ensures r.Some? <==> AllParse(ms, dateOf)
    ensures r.Some? ==> Indexes(r.value, Emitted(ms, dateOf))
  {
    if |ms| == 0 then
      Some(map[])
    else
      var init := ms[..|ms| - 1];
      var e := ms[|ms| - 1];
      AllParseSnoc(ms, dateOf);
      match FormatMilestoneData(init, dateOf)
      case None => None
      case Some(idx) =>
        PushEntryIndexes(idx, Emitted(init, dateOf), e, dateOf);
        PushEntry(idx, e, dateOf)
  }

  // ---------------------------------------------------------------------------
  // Lemmas connecting the two
  // ---------------------------------------------------------------------------

  lemma AllParseSnoc(ms: seq<Entry>, dateOf: DateOf)
    requires |ms| > 0
    ensures AllParse(ms, dateOf) <==> AllParse(ms[..|ms| - 1], dateOf) && EntryParses(ms[|ms| - 1], dateOf)
  {
    assert forall i :: 0 <= i < |ms| - 1 ==> ms[..|ms| - 1][i] == ms[i];
  }

  lemma BucketSnoc(rs: seq<Record>, r: Record, key: string)
    ensures Bucket(rs + [r], key) == Bucket(rs, key) + (if r.date == key then [r] else [])
  {
    assert (rs + [r])[..|rs|] == rs;
  }

  lemma {:induction false} BucketOfAbsentDate(rs: seq<Record>, key: string)
    requires key !in DatesOf(rs)
    ensures Bucket(rs, key) == []
  {
    if |rs| > 0 {
      var init := rs[..|rs| - 1];
      assert DatesOf(init) <= DatesOf(rs) by {
        forall d | d in DatesOf(init) ensures d in DatesOf(rs) {
          var i :| 0 <= i < |init| && init[i].date == d;
          assert rs[i] == init[i];
        }
      }
      BucketOfAbsentDate(init, key);
      assert rs[|rs| - 1].date in DatesOf(rs);
    }
  }

  lemma PushIndexes(idx: DateIndex, rs: seq<Record>, r: Record)
    requires Indexes(idx, rs)
    ensures Indexes(Push(idx, r), rs + [r])
  {
    var rs' := rs + [r];
    assert DatesOf(rs') == DatesOf(rs) + {r.date} by {
      forall d | d in DatesOf(rs') ensures d in DatesOf(rs) + {r.date} {
        var i :| 0 <= i < |rs'| && rs'[i].date == d;
        if i < |rs| { assert rs[i] == rs'[i]; }
      }
      forall d | d in DatesOf(rs) ensures d in DatesOf(rs') {
        var i :| 0 <= i < |rs| && rs[i].date == d;
        assert rs'[i] == rs[i];
      }
      assert rs'[|rs|] == r;
    }
    forall k | k in Push(idx, r) ensures Push(idx, r)[k] == Bucket(rs', k) {
      BucketSnoc(rs, r, k);
      if k == r.date && k !in idx {
        BucketOfAbsentDate(rs, k);
      }
    }
  }

  lemma PushFieldIndexes(idx: DateIndex, rs: seq<Record>, e: Entry, channel: Channel, field: Option<string>, dateOf: DateOf)
    requires Indexes(idx, rs)
    ensures PushField(idx, e, channel, field, dateOf).Some? <==> FieldParses(field, dateOf)
    ensures FieldParses(field, dateOf) ==>
      Indexes(PushField(idx, e, channel, field, dateOf).value, rs + FieldRecords(e, channel, field, dateOf))
  {
    if Present(field) && dateOf(field.value).Some? {
      PushIndexes(idx, rs, Record(e.mstone, channel, Version(e.mstone, channel), dateOf(field.value).value));
    } else {
      assert rs + [] == rs;
    }
  }

  lemma PushEntryIndexes(idx: DateIndex, rs: seq<Record>, e: Entry, dateOf: DateOf)
    requires Indexes(idx, rs)
    ensures PushEntry(idx, e, dateOf).Some? <==> EntryParses(e, dateOf)
    ensures EntryParses(e, dateOf) ==> Indexes(PushEntry(idx, e, dateOf).value, rs + EntryRecords(e, dateOf))
  {
    PushEntryParses(idx, e, dateOf);
    if EntryParses(e, dateOf) {
      PushFieldIndexes(idx, rs, e, Stable, e.stableDate, dateOf);
      var mid := PushField(idx, e, Stable, e.stableDate, dateOf).value;
      var stable := FieldRecords(e, Stable, e.stableDate, dateOf);
      var beta := FieldRecords(e, Beta, e.earliestBeta, dateOf);
      PushFieldIndexes(mid, rs + stable, e, Beta, e.earliestBeta, dateOf);
      assert PushEntry(idx, e, dateOf) == PushField(mid, e, Beta, e.earliestBeta, dateOf);
      assert (rs + stable) + beta == rs + EntryRecords(e, dateOf);
    }
  }

  /** An entry is pushed exactly when both its present dates are valid. */
  lemma PushEntryParses(idx: DateIndex, e: Entry, dateOf: DateOf)
    ensures PushEntry(idx, e, dateOf).Some? <==> EntryParses(e, dateOf)
  {
  }

  /** The bucket under any date, present or not, is the filter of the reference records. */
  lemma LookupIsBucket(idx: DateIndex, rs: seq<Record>, key: string)
    requires Indexes(idx, rs)
    ensures Lookup(idx, key) == Bucket(rs, key)
  {
    if key !in idx {
      BucketOfAbsentDate(rs, key);
    }
  }

  /** Every record stored under key `k` is dated `k`. */
  lemma RecordsMatchKey(ms: seq<Entry>, dateOf: DateOf)
    requires AllParse(ms, dateOf)
    ensures var idx := FormatMilestoneData(ms, dateOf).value;
      forall k, j :: k in idx && 0 <= j < |idx[k]| ==> idx[k][j].date == k
  {
  }

  lemma {:induction false} EmittedMembership(ms: seq<Entry>, dateOf: DateOf, r: Record)
    requires AllParse(ms, dateOf)
    ensures r in Emitted(ms, dateOf) <==> exists i :: 0 <= i < |ms| && r in EntryRecords(ms[i], dateOf)
  {
    if |ms| > 0 {
      var init := ms[..|ms| - 1];
      assert forall i :: 0 <= i < |init| ==> init[i] == ms[i];
      EmittedMembership(init, dateOf, r);
    }
  }

  /** Provenance and completeness: a record sits in some bucket exactly when some
      input entry yields it, and then it sits under its own date, carries that
      entry's milestone, and its version encodes milestone and channel. */
  lemma RecordProvenance(ms: seq<Entry>, dateOf: DateOf, r: Record)
    requires AllParse(ms, dateOf)
    ensures var idx := FormatMilestoneData(ms, dateOf).value;
      (r.date in idx && r in idx[r.date]) <==> exists i :: 0 <= i < |ms| && r in EntryRecords(ms[i], dateOf)
    ensures var idx := FormatMilestoneData(ms, dateOf).value;
      r.date in idx && r in idx[r.date] ==>
        && r.version == Version(r.mstone, r.channel)
        && ParseVersion(r.version) == Some((r.mstone, r.channel))
        && exists i :: 0 <= i < |ms| && ms[i].mstone == r.mstone
  {
    var idx := FormatMilestoneData(ms, dateOf).value;
    var rs := Emitted(ms, dateOf);
    EmittedMembership(ms, dateOf, r);
    LookupIsBucket(idx, rs, r.date);
    BucketMembership(rs, r);
    if r.date in idx && r in idx[r.date] {
      VersionRoundTrip(r.mstone, r.channel);
    }
  }

  lemma {:induction false} BucketMembership(rs: seq<Record>, r: Record)
    ensures r in Bucket(rs, r.date) <==> r in rs
  {
    if |rs| > 0 {
      var init := rs[..|rs| - 1];
      BucketMembership(init, r);
      assert rs == init + [rs[|rs| - 1]];
    }
  }

  // ---------------------------------------------------------------------------
  // Counting
  // ---------------------------------------------------------------------------

  /** Some date of a non-empty index. */
  ghost function Pick(idx: DateIndex): (k: string)
    requires |idx| > 0
    ensures k in idx
  {
    assert idx.Keys != {};
    var k :| k in idx; k
  }

  lemma RemoveShrinks(idx: DateIndex, k: string)
    requires k in idx
    ensures |idx - {k}| == |idx| - 1
  {
    assert (idx - {k}).Keys == idx.Keys - {k};
  }

  /** The number of records over all buckets. */
  ghost function TotalRecords(idx: DateIndex): nat
    decreases |idx|
  {
    if |idx| == 0 then 0
    else
      var k := Pick(idx);
      RemoveShrinks(idx, k);
      |idx[k]| + TotalRecords(idx - {k})
  }

  lemma {:induction false} TotalRecordsAt(idx: DateIndex, k: string)
    requires k in idx
    ensures TotalRecords(idx) == |idx[k]| + TotalRecords(idx - {k})
    decreases |idx|
  {
    var j := Pick(idx);
    RemoveShrinks(idx, j);
    RemoveShrinks(idx, k);
    if j != k {
      TotalRecordsAt(idx - {j}, k);
      TotalRecordsAt(idx - {k}, j);
      assert idx - {j} - {k} == idx - {k} - {j};
    }
  }

  lemma TotalRecordsPush(idx: DateIndex, r: Record)
    ensures TotalRecords(Push(idx, r)) == TotalRecords(idx) + 1
  {
    var idx' := Push(idx, r);
    var d := r.date;
    TotalRecordsAt(idx', d);
    assert |idx'[d]| == |Lookup(idx, d)| + 1;
    PushElsewhereUnchanged(idx, r);
    if d in idx {
      TotalRecordsAt(idx, d);
    } else {
      assert idx - {d} == idx;
    }
  }

  /** Pushing a record leaves every other date as it was. */
  lemma PushElsewhereUnchanged(idx: DateIndex, r: Record)
    ensures Push(idx, r) - {r.date} == idx - {r.date}
  {
    var d := r.date;
    assert (Push(idx, r) - {d}).Keys == (idx - {d}).Keys;
  }

  lemma PushEntryCount(idx: DateIndex, e: Entry, dateOf: DateOf)
    requires PushEntry(idx, e, dateOf).Some?
    ensures TotalRecords(PushEntry(idx, e, dateOf).value) == TotalRecords(idx) + Contribution(e)
  {
    var mid := PushField(idx, e, Stable, e.stableDate, dateOf).value;
    if Present(e.stableDate) {
      TotalRecordsPush(idx, Record(e.mstone, Stable, Version(e.mstone, Stable), dateOf(e.stableDate.value).value));
    }
    if Present(e.earliestBeta) {
      TotalRecordsPush(mid, Record(e.mstone, Beta, Version(e.mstone, Beta), dateOf(e.earliestBeta.value).value));
    }
  }

  /** No record is lost or duplicated: the buckets hold, in total, one record per
      present date field of the input; an entry with neither field adds nothing. */
  lemma {:induction false} RecordCount(ms: seq<Entry>, dateOf: DateOf)
    requires AllParse(ms, dateOf)
    ensures TotalRecords(FormatMilestoneData(ms, dateOf).value) == SumContributions(ms)
  {
    if |ms| > 0 {
      var init := ms[..|ms| - 1];
      RecordCount(init, dateOf);
      PushEntryCount(FormatMilestoneData(init, dateOf).value, ms[|ms| - 1], dateOf);
    }
  }

  // ---------------------------------------------------------------------------
  // Order
  // ---------------------------------------------------------------------------

  lemma {:induction false} BucketAppend(a: seq<Record>, b: seq<Record>, key: string)
    ensures Bucket(a + b, key) == Bucket(a, key) + Bucket(b, key)
  {
    if |b| == 0 {
      assert a + b == a;
    } else {
      var init, last := b[..|b| - 1], b[|b| - 1];
      assert b == init + [last];
      assert a + b == (a + init) + [last];
      BucketAppend(a, init, key);
      BucketSnoc(a + init, last, key);
      BucketSnoc(init, last, key);
    }
  }

  lemma {:induction false} EmittedAppend(ms1: seq<Entry>, ms2: seq<Entry>, dateOf: DateOf)
    requires AllParse(ms1 + ms2, dateOf)
    ensures AllParse(ms1, dateOf) && AllParse(ms2, dateOf)
    ensures Emitted(ms1 + ms2, dateOf) == Emitted(ms1, dateOf) + Emitted(ms2, dateOf)
  {
    AllParseSplit(ms1, ms2, dateOf);
    if |ms2| == 0 {
      assert ms1 + ms2 == ms1;
    } else {
      var init, last := ms2[..|ms2| - 1], ms2[|ms2| - 1];
      assert ms2 == init + [last];
      assert ms1 + ms2 == (ms1 + init) + [last];
      EmittedSnoc(ms1 + init, last, dateOf);
      EmittedSnoc(init, last, dateOf);
      EmittedAppend(ms1, init, dateOf);
    }
  }

  /** Appending one entry appends its records. */
  lemma EmittedSnoc(ms: seq<Entry>, e: Entry, dateOf: DateOf)
    requires AllParse(ms + [e], dateOf)
    ensures AllParse(ms, dateOf) && EntryParses(e, dateOf)
    ensures Emitted(ms + [e], dateOf) == Emitted(ms, dateOf) + EntryRecords(e, dateOf)
  {
    assert (ms + [e])[..|ms|] == ms;
    AllParseSnoc(ms + [e], dateOf);
  }

  lemma AllParseSplit(ms1: seq<Entry>, ms2: seq<Entry>, dateOf: DateOf)
    requires AllParse(ms1 + ms2, dateOf)
    ensures AllParse(ms1, dateOf) && AllParse(ms2, dateOf)
    ensures |ms2| > 0 ==> AllParse(ms1 + ms2[..|ms2| - 1], dateOf)
  {
    assert forall i :: 0 <= i < |ms1| ==> ms1[i] == (ms1 + ms2)[i];
    assert forall i :: 0 <= i < |ms2| ==> ms2[i] == (ms1 + ms2)[|ms1| + i];
    if |ms2| > 0 {
      var init := ms2[..|ms2| - 1];
      assert forall i :: 0 <= i < |ms1 + init| ==> (ms1 + init)[i] == (ms1 + ms2)[i];
    }
  }

  /** Input order is kept inside every bucket: normalising a concatenation puts,
      under each date, the records of the first part before those of the second. */
  lemma FormatConcat(ms1: seq<Entry>, ms2: seq<Entry>, dateOf: DateOf, key: string)
    requires AllParse(ms1 + ms2, dateOf)
    ensures FormatMilestoneData(ms1, dateOf).Some? && FormatMilestoneData(ms2, dateOf).Some?
    ensures Lookup(FormatMilestoneData(ms1 + ms2, dateOf).value, key)
         == Lookup(FormatMilestoneData(ms1, dateOf).value, key) + Lookup(FormatMilestoneData(ms2, dateOf).value, key)
  {
    EmittedAppend(ms1, ms2, dateOf);
    LookupIsBucket(FormatMilestoneData(ms1 + ms2, dateOf).value, Emitted(ms1 + ms2, dateOf), key);
    LookupIsBucket(FormatMilestoneData(ms1, dateOf).value, Emitted(ms1, dateOf), key);
    LookupIsBucket(FormatMilestoneData(ms2, dateOf).value, Emitted(ms2, dateOf), key);
    BucketAppend(Emitted(ms1, dateOf), Emitted(ms2, dateOf), key);
  }

  lemma PushIntoEmpty(r: Record)
    ensures Push(map[], r) == map[r.date := [r]]
  {
    assert Lookup(map[], r.date) + [r] == [r];
  }

  lemma PushOnto(idx: DateIndex, r: Record)
    ensures Push(idx, r) == idx[r.date := Lookup(idx, r.date) + [r]]
  {
  }

  /** A milestone whose stable and beta dates fall on the same day yields one
      bucket holding its stable record, then its beta record. */
  lemma SameDayStableFirst(e: Entry, dateOf: DateOf, day: string)
    requires Present(e.stableDate) && Present(e.earliestBeta)
    requires dateOf(e.stableDate.value) == Some(day) && dateOf(e.earliestBeta.value) == Some(day)
    ensures FormatMilestoneData([e], dateOf)
         == Some(map[day := [Record(e.mstone, Stable, Version(e.mstone, Stable), day),
                             Record(e.mstone, Beta, Version(e.mstone, Beta), day)]])
  {
    var stable := Record(e.mstone, Stable, Version(e.mstone, Stable), day);
    var beta := Record(e.mstone, Beta, Version(e.mstone, Beta), day);
    assert [e][..0] == [];
    assert FormatMilestoneData([e], dateOf) == PushEntry(map[], e, dateOf);
    PushIntoEmpty(stable);
    PushOnto(map[day := [stable]], beta);
    var both := map[day := [stable]][day := [stable] + [beta]];
    assert both.Keys == {day};
    assert both[day] == [stable, beta];
    assert both == map[day := [stable, beta]];
  }

  lemma Version100()
    ensures Version(100, Stable) == "100.0.0.0"
    ensures Version(100, Beta) == "100.0.0.0-beta"
  {
    assert NatToString(1) == "1";
    assert NatToString(10) == "10";
    assert NatToString(100) == "100";
  }

  /** An end-to-end example: milestone 100 with a stable
      and a beta date yields one stable and one beta record under their dates. */
  lemma Milestone100Example(dateOf: DateOf)
    requires dateOf("2022-03-01T00:00:00") == Some("2022-03-01")
    requires dateOf("2022-02-01T00:00:00") == Some("2022-02-01")
    ensures FormatMilestoneData([Entry(100, Some("2022-03-01T00:00:00"), Some("2022-02-01T00:00:00"))], dateOf)
         == Some(map["2022-03-01" := [Record(100, Stable, "100.0.0.0", "2022-03-01")],
                      "2022-02-01" := [Record(100, Beta, "100.0.0.0-beta", "2022-02-01")]])
  {
    var e := Entry(100, Some("2022-03-01T00:00:00"), Some("2022-02-01T00:00:00"));
    var stable := Record(100, Stable, "100.0.0.0", "2022-03-01");
    var beta := Record(100, Beta, "100.0.0.0-beta", "2022-02-01");
    Version100();
    assert [e][..0] == [];
    assert FormatMilestoneData([e], dateOf) == PushEntry(map[], e, dateOf);
    PushIntoEmpty(stable);
    assert PushField(map[], e, Stable, e.stableDate, dateOf) == Some(map["2022-03-01" := [stable]]);
    PushOnto(map["2022-03-01" := [stable]], beta);
    var both := map["2022-03-01" := [stable]]["2022-02-01" := [] + [beta]];
    assert [] + [beta] == [beta];
    assert both.Keys == {"2022-03-01", "2022-02-01"};
    assert both["2022-03-01"] == [stable] && both["2022-02-01"] == [beta];
    assert both == map["2022-03-01" := [stable], "2022-02-01" := [beta]];
    assert PushField(map["2022-03-01" := [stable]], e, Beta, e.earliestBeta, dateOf) == Some(both);
  }
}

=== FILE: options.dfy ===
/** The optional value used throughout the model: `None` stands for a JavaScript
    value that is missing, unreadable or would have thrown. */
module Options {

  datatype Option<+T> = None | Some(value: T) {

    /** The wrapped value, or `default` when there is none. */
    function GetOr(default: T): T {
      match this
      case Some(v) => v
      case None => default
    }
  }
}

=== FILE: refresh.dfy ===
/** The refresh policy of the Chromium route (`fetchChromiumMilestones`) as a
    pure state machine. Each request either serves a fresh cache, fetches and
    stores new data, or falls back to the cache at any age, or to `{}`. The file
    system and the upstream dashboard appear only as the outcomes they
    produce. */
module Refresh {
  import opened Options
  import opened Milestones

  /** A cache younger than this many milliseconds is served as is. */
  const DayMs: int := 24 * 60 * 60 * 1000

  /** The first milestone requested, whatever the latest one is. */
  const FirstMilestone: int := 80

  /** How far past the latest milestone the requests go. */
  const Lookahead: int := 5

  // ---------------------------------------------------------------------------
  // Observations
  // ---------------------------------------------------------------------------

  /** The cache file as one request sees it. `age` is `Date.now() - mtimeMs`
      rounded down to a whole millisecond (`mtimeMs` is finer than that, and
      for integral limits `age < limit` holds exactly when it holds of the
      floor), `None` when `stat` fails. `contents` is the parsed file, `None` when the
      read or the parse fails. */
  datatype CacheFile = CacheFile(age: Option<int>, contents: Option<DateIndex>)

  /** A JavaScript Number as `Math.max` over `parseInt` results yields it,
      with every finite value an exact integer. `parseInt` can also give
      `+Infinity` (a numeral of more than 308 digits) or a rounded value
      above 2^53; neither is represented here. */
  datatype JsNumber = NegativeInfinity | Finite(n: int) | NaN

  /** The unparameterised schedule call. `LatestFailed` covers a thrown fetch, a
      non-ok status, a body that does not parse and a missing `mstones` list.
      Otherwise each listed entry's `parseInt(mstone)` is given, `None` for NaN. */
  datatype LatestResponse = LatestFailed | LatestListed(parsed: seq<Option<int>>)

  /** One per-milestone call: a non-ok status, a thrown fetch or body parse, or
      the `mstones` list received (empty when absent). */
  datatype MilestoneResponse = NotOk | Threw | Received(mstones: seq<Entry>)

  /** The upstream dashboard, as the answers it gives. */
  datatype Upstream = Upstream(latest: LatestResponse, respond: int -> MilestoneResponse)

  /** `mkdir` of the cache directory: success, or an error with its code. */
  datatype MkdirResult = MkdirOk | MkdirFailed(code: string)

  /** The local file system, as the outcomes of its calls. `writeOk` is the
      outcome of `writeFile`. */
  datatype Disk = Disk(cache: CacheFile, mkdir: MkdirResult, writeOk: bool)

  /** An upstream call issued by one request. */
  datatype Request = LatestRequest | MilestoneRequest(mstone: int)

  /** The value a request serves, and where it came from. */
  datatype Served =
    | CachedFresh(data: DateIndex)
    | Fetched(data: DateIndex)
    | CachedFallback(data: DateIndex)
    | NothingAvailable

  datatype Outcome = Outcome(served: Served, requests: seq<Request>)

  /** The JSON body sent to the caller. */
  function Data(s: Served): DateIndex {
    match s
    case CachedFresh(d) => d
    case Fetched(d) => d
    case CachedFallback(d) => d
    case NothingAvailable => map[]
  }

  // ---------------------------------------------------------------------------
  // Freshness and the cache directory
  // ---------------------------------------------------------------------------

  /** The cache is served without upstream calls when `stat` succeeds, the age
      is strictly below one day and the file reads and parses. */
  predicate IsFresh(c: CacheFile) {
    c.age.Some? && c.age.value < DayMs && c.contents.Some?
  }

  /** `ensureCacheDir`: a directory-exists error counts as success, any other
      error propagates. */
  predicate EnsureCacheDir(r: MkdirResult) {
    match r
    case MkdirOk => true
    case MkdirFailed(code) => code == "EEXIST"
  }

  /** The directory is ensured, then the file written; either failing throws. */
  predicate CacheWritten(disk: Disk) {
    EnsureCacheDir(disk.mkdir) && disk.writeOk
  }

  /** The outer `catch`: the cache at any age, else the empty object. */
  function Fallback(c: CacheFile): (s: Served)
    ensures Data(s) == c.contents.GetOr(map[])
    ensures !s.Fetched? && !s.CachedFresh?
  {
    match c.contents
    case Some(d) => CachedFallback(d)
    case None => NothingAvailable
  }

  // ---------------------------------------------------------------------------
  // The latest milestone and the requested range
  // ---------------------------------------------------------------------------

  /** `Math.max(...xs)`: `-Infinity` for no arguments, `NaN` as soon as one
      argument is `NaN`, otherwise the largest value. */
  function MaxOf(xs: seq<Option<int>>): (r: JsNumber)
    ensures r.NegativeInfinity? <==> |xs| == 0
    ensures r.NaN? <==> exists i :: 0 <= i < |xs| && xs[i].None?
    ensures r.Finite? ==> exists i :: 0 <= i < |xs| && xs[i] == Some(r.n)
    ensures r.Finite? ==> forall i :: 0 <= i < |xs| ==> xs[i].Some? && xs[i].value <= r.n
  {
    if |xs| == 0 then NegativeInfinity
    else
      var init := xs[..|xs| - 1];
      assert forall i :: 0 <= i < |init| ==> init[i] == xs[i];
      match (MaxOf(init), xs[|xs| - 1])
      case (NaN, _) => NaN
      case (_, None) => NaN
      case (NegativeInfinity, Some(v)) => Finite(v)
      case (Finite(a), Some(v)) => Finite(if a < v then v else a)
  }

  /** `x + k` on a JavaScript Number. */
  function Plus(x: JsNumber, k: int): JsNumber {
    match x
    case Finite(n) => Finite(n + k)
    case _ => x
  }

  /** `m <= x`: false for `NaN` and `-Infinity`. */
  predicate AtMost(m: int, x: JsNumber) {
    x.Finite? && m <= x.n
  }

  /** The integers `lo..hi`, ascending; empty when `hi < lo`. */
  function Range(lo: int, hi: int): seq<int> {
    if hi < lo then [] else seq(hi - lo + 1, i => lo + i)
  }

  /** The milestones requested once the latest one is known. */
  function MilestoneRange(latest: JsNumber): seq<int> {
    match Plus(latest, Lookahead)
    case Finite(end) => Range(FirstMilestone, end)
    case _ => []
  }

  /** The per-milestone calls cover exactly `80..latest+5`, ascending, each
      once; none when the latest value is not a finite number. */
  lemma MilestoneRangeCoverage(latest: JsNumber)
    ensures var r := MilestoneRange(latest);
      && (forall m :: m in r <==> FirstMilestone <= m && AtMost(m, Plus(latest, Lookahead)))
      && (forall i, j :: 0 <= i < j < |r| ==> r[i] < r[j])
      && (latest.Finite? && latest.n + Lookahead >= FirstMilestone ==> |r| == latest.n + Lookahead - FirstMilestone + 1)
      && (latest.Finite? && latest.n + Lookahead < FirstMilestone ==> r == [])
      && (!latest.Finite? ==> r == [])
  {
    var r := MilestoneRange(latest);
    forall m | FirstMilestone <= m && AtMost(m, Plus(latest, Lookahead)) ensures m in r {
      assert r[m - FirstMilestone] == m;
    }
  }

  // ---------------------------------------------------------------------------
  // The per-milestone loop
  // ---------------------------------------------------------------------------

  /** What one per-milestone call adds: a received non-empty list, else nothing. */
  function Appended(resp: MilestoneResponse): seq<Entry> {
    if resp.Received? && |resp.mstones| > 0 then resp.mstones else []
  }

  /** All entries collected over the given milestones, in request order. A
      failed call adds nothing and does not stop the others. */
  function Collected(milestones: seq<int>, respond: int -> MilestoneResponse): (all: seq<Entry>)
    ensures forall e :: e in all <==> exists i :: 0 <= i < |milestones| && e in Appended(respond(milestones[i]))
  {
    if |milestones| == 0 then []
    else
      var init := milestones[..|milestones| - 1];
      assert forall i :: 0 <= i < |init| ==> init[i] == milestones[i];
      Collected(init, respond) + Appended(respond(milestones[|milestones| - 1]))
  }

  lemma {:induction false} CollectedAppend(a: seq<int>, b: seq<int>, respond: int -> MilestoneResponse)
    ensures Collected(a + b, respond) == Collected(a, respond) + Collected(b, respond)
  {
    if |b| == 0 {
      assert a + b == a;
    } else {
      var init, last := b[..|b| - 1], b[|b| - 1];
      var ab := a + b;
      assert ab[..|ab| - 1] == a + init;
      assert ab[|ab| - 1] == last;
      assert Collected(ab, respond) == Collected(a + init, respond) + Appended(respond(last));
      assert Collected(b, respond) == Collected(init, respond) + Appended(respond(last));
      CollectedAppend(a, init, respond);
    }
  }

  /** Requests are answered one by one: the entries of an earlier milestone come
      before those of a later one, and a skipped milestone contributes nothing. */
  lemma CollectedInOrder(a: seq<int>, m: int, b: seq<int>, respond: int -> MilestoneResponse)
    ensures Collected(a + [m] + b, respond) == Collected(a, respond) + Appended(respond(m)) + Collected(b, respond)
    ensures !respond(m).Received? ==> Collected(a + [m] + b, respond) == Collected(a, respond) + Collected(b, respond)
  {
    CollectedAppend(a + [m], b, respond);
    CollectedAppend(a, [m], respond);
    assert [m][..0] == [];
  }

  /** The `for` loop of the source: one call per milestone from 80 while
      `mstone <= latest + 5`, skipping calls that fail. */
  method FetchMilestoneRange(latest: JsNumber, respond: int -> MilestoneResponse)
    returns (requested: seq<int>, all: seq<Entry>)
    ensures requested == MilestoneRange(latest)
    ensures all == Collected(requested, respond)
  {
    var end := Plus(latest, Lookahead);
    requested := [];
    all := [];
    var mstone := FirstMilestone;
    while AtMost(mstone, end)
      invariant FirstMilestone <= mstone
      invariant end.Finite? && FirstMilestone <= end.n ==> mstone <= end.n + 1
      invariant !(end.Finite? && FirstMilestone <= end.n) ==> mstone == FirstMilestone
      invariant requested == Range(FirstMilestone, mstone - 1)
      invariant all == Collected(requested, respond)
      decreases if end.Finite? then end.n + 1 - mstone else 0
    {
      assert Range(FirstMilestone, mstone) == requested + [mstone];
      assert (requested + [mstone])[..|requested|] == requested;
      requested := requested + [mstone];
      match respond(mstone) {
        case NotOk =>
          // logged and skipped
        case Threw =>
          // logged and skipped
        case Received(ms) =>
          if |ms| > 0 {
            all := all + ms;
          }
      }
      mstone := mstone + 1;
    }
  }

  function MilestoneRequests(ms: seq<int>): seq<Request> {
    seq(|ms|, i requires 0 <= i < |ms| => MilestoneRequest(ms[i]))
  }

  // ---------------------------------------------------------------------------
  // The state machine
  // ---------------------------------------------------------------------------

  /** `fetchChromiumMilestones`. There is no retry: one failed latest call, an
      invalid date in the collected data or a failed cache write all end in
      the fallback. The freshly formatted data is then not returned. */
  function FetchChromiumMilestones(disk: Disk, up: Upstream, dateOf: DateOf): (o: Outcome)
    ensures o.requests == [] <==> IsFresh(disk.cache)
    ensures IsFresh(disk.cache) ==> o.served == CachedFresh(disk.cache.contents.value)
    ensures !IsFresh(disk.cache) ==> o.requests[0] == LatestRequest
    ensures o.served.Fetched? ==>
      && !IsFresh(disk.cache) && up.latest.LatestListed? && CacheWritten(disk)
      && AllParse(Collected(MilestoneRange(MaxOf(up.latest.parsed)), up.respond), dateOf)
    ensures !o.served.Fetched? && !IsFresh(disk.cache) ==> o.served == Fallback(disk.cache)
  {
    if IsFresh(disk.cache) then
      Outcome(CachedFresh(disk.cache.contents.value), [])
    else
      match up.latest
      case LatestFailed =>
        Outcome(Fallback(disk.cache), [LatestRequest])
      case LatestListed(parsed) =>
        var milestones := MilestoneRange(MaxOf(parsed));
        var requests := [LatestRequest] + MilestoneRequests(milestones);
        match FormatMilestoneData(Collected(milestones, up.respond), dateOf)
        case Some(formatted) =>
          if CacheWritten(disk) then Outcome(Fetched(formatted), requests)
          else Outcome(Fallback(disk.cache), requests)
        case None =>
          Outcome(Fallback(disk.cache), requests)
  }

  // ---------------------------------------------------------------------------
  // Properties of the policy
  // ---------------------------------------------------------------------------

  /** Freshness boundary: a cache exactly one day old is stale and triggers the
      latest call; one millisecond younger is served with no upstream call. */
  lemma FreshnessBoundary(contents: DateIndex, mkdir: MkdirResult, writeOk: bool, up: Upstream, dateOf: DateOf)
    ensures FetchChromiumMilestones(Disk(CacheFile(Some(DayMs - 1), Some(contents)), mkdir, writeOk), up, dateOf)
         == Outcome(CachedFresh(contents), [])
    ensures FetchChromiumMilestones(Disk(CacheFile(Some(DayMs), Some(contents)), mkdir, writeOk), up, dateOf).requests[0]
         == LatestRequest
  {
  }

  /** The requests of a refresh: the latest call, then one call per milestone
      `80..latest+5` in ascending order, and nothing else. */
  lemma RefreshRequests(disk: Disk, up: Upstream, dateOf: DateOf)
    requires !IsFresh(disk.cache)
    ensures var o := FetchChromiumMilestones(disk, up, dateOf);
      match up.latest
      case LatestFailed => o.requests == [LatestRequest]
      case LatestListed(parsed) =>
        && |o.requests| == 1 + |MilestoneRange(MaxOf(parsed))|
        && forall i :: 1 <= i < |o.requests| ==>
             o.requests[i] == MilestoneRequest(FirstMilestone + i - 1)
  {
    match up.latest {
      case LatestFailed =>
      case LatestListed(parsed) =>
        var ms := MilestoneRange(MaxOf(parsed));
        assert forall i :: 0 <= i < |ms| ==> ms[i] == FirstMilestone + i;
    }
  }

  /** What a successful refresh serves: the normalised form of the collected
      entries, provided the latest call, the normalisation and the write all
      succeed. */
  lemma FreshDataServed(disk: Disk, up: Upstream, dateOf: DateOf)
    requires !IsFresh(disk.cache) && up.latest.LatestListed? && CacheWritten(disk)
    requires AllParse(Collected(MilestoneRange(MaxOf(up.latest.parsed)), up.respond), dateOf)
    ensures FetchChromiumMilestones(disk, up, dateOf).served
         == Fetched(FormatMilestoneData(Collected(MilestoneRange(MaxOf(up.latest.parsed)), up.respond), dateOf).value)
  {
  }

  /** The fallback law: whenever a refresh does not complete (the latest call
      fails, a collected date is invalid so the normaliser throws, or the cache
      write fails), the cache's contents are served unchanged at any age, or
      `{}` when it is unreadable. */
  lemma FallbackLaw(disk: Disk, up: Upstream, dateOf: DateOf)
    requires !IsFresh(disk.cache)
    requires up.latest.LatestFailed? || !CacheWritten(disk)
      || !AllParse(Collected(MilestoneRange(MaxOf(up.latest.parsed)), up.respond), dateOf)
    ensures Data(FetchChromiumMilestones(disk, up, dateOf).served) == disk.cache.contents.GetOr(map[])
    ensures !FetchChromiumMilestones(disk, up, dateOf).served.Fetched?
  {
  }

  /** A failed cache write discards the freshly formatted data even though the
      fetch succeeded. */
  lemma WriteFailureDiscardsFreshData(disk: Disk, up: Upstream, dateOf: DateOf)
    requires !IsFresh(disk.cache) && up.latest.LatestListed?
    requires !CacheWritten(disk)
    ensures FetchChromiumMilestones(disk, up, dateOf).served == Fallback(disk.cache)
  {
  }

  /** A refresh that collects nothing still counts as a success: when every
      per-milestone call fails, or the latest list is empty, the empty index is
      written over the stale cache and served, even when that cache is
      readable. */
  lemma EmptyRefreshOverwritesCache(disk: Disk, up: Upstream, dateOf: DateOf)
    requires !IsFresh(disk.cache) && up.latest.LatestListed? && CacheWritten(disk)
    requires forall m :: m in MilestoneRange(MaxOf(up.latest.parsed)) ==> Appended(up.respond(m)) == []
    ensures FetchChromiumMilestones(disk, up, dateOf).served == Fetched(map[])
  {
    NothingCollected(MilestoneRange(MaxOf(up.latest.parsed)), up.respond);
  }

  /** Calls that all fail, or return empty lists, collect nothing. */
  lemma {:induction false} NothingCollected(milestones: seq<int>, respond: int -> MilestoneResponse)
    requires forall m :: m in milestones ==> Appended(respond(m)) == []
    ensures Collected(milestones, respond) == []
  {
    if |milestones| > 0 {
      var init, last := milestones[..|milestones| - 1], milestones[|milestones| - 1];
      assert forall m :: m in init ==> m in milestones;
      assert last in milestones;
      assert Appended(respond(last)) == [];
      NothingCollected(init, respond);
      assert Collected(init, respond) == [];
      assert Collected(milestones, respond) == Collected(init, respond) + Appended(respond(last));
    }
  }

  /** Two concrete cases: a stale, readable cache is replaced by `{}` when the
      latest list names milestone 120 but every milestone call is not ok, and
      when the latest list is empty (`Math.max()` is `-Infinity`, so no
      milestone is requested). */
  lemma EmptyRefreshExamples(prev: DateIndex, dateOf: DateOf)
    ensures FetchChromiumMilestones(Disk(CacheFile(Some(DayMs), Some(prev)), MkdirOk, true),
                                    Upstream(LatestListed([Some(120)]), m => NotOk), dateOf).served
         == Fetched(map[])
    ensures FetchChromiumMilestones(Disk(CacheFile(Some(DayMs), Some(prev)), MkdirOk, true),
                                    Upstream(LatestListed([]), m => NotOk), dateOf).served
         == Fetched(map[])
  {
    EmptyRefreshOverwritesCache(Disk(CacheFile(Some(DayMs), Some(prev)), MkdirOk, true),
                                Upstream(LatestListed([Some(120)]), m => NotOk), dateOf);
    EmptyRefreshOverwritesCache(Disk(CacheFile(Some(DayMs), Some(prev)), MkdirOk, true),
                                Upstream(LatestListed([]), m => NotOk), dateOf);
  }

  /** `EEXIST` from `mkdir` behaves exactly like success; any other code ends
      the refresh in the fallback. */
  lemma ExistingDirectoryTolerated(cache: CacheFile, writeOk: bool, up: Upstream, dateOf: DateOf, code: string)
    ensures FetchChromiumMilestones(Disk(cache, MkdirFailed("EEXIST"), writeOk), up, dateOf)
         == FetchChromiumMilestones(Disk(cache, MkdirOk, writeOk), up, dateOf)
    ensures code != "EEXIST" && !IsFresh(cache) ==>
      FetchChromiumMilestones(Disk(cache, MkdirFailed(code), writeOk), up, dateOf).served == Fallback(cache)
  {
  }

  /** The cache file after a request, `elapsed` milliseconds later: a served
      refresh rewrote it; otherwise it is untouched and has aged. */
  function CacheAfter(cache: CacheFile, o: Outcome, elapsed: nat): CacheFile {
    match o.served
    case Fetched(d) => CacheFile(Some(elapsed), Some(d))
    case _ => CacheFile(if cache.age.Some? then Some(cache.age.value + elapsed) else None, cache.contents)
  }

  /** Two requests in quick succession: once a request served the cache or a
      stored refresh, a later request within the day makes no upstream call and
      serves the same data, whatever the upstream and the disk would do. */
  lemma WarmCacheIsStable(disk: Disk, up: Upstream, dateOf: DateOf, elapsed: nat,
                          mkdir: MkdirResult, writeOk: bool, up': Upstream, dateOf': DateOf)
    requires FetchChromiumMilestones(disk, up, dateOf).served.CachedFresh?
          || FetchChromiumMilestones(disk, up, dateOf).served.Fetched?
    requires var after := CacheAfter(disk.cache, FetchChromiumMilestones(disk, up, dateOf), elapsed);
      after.age.Some? && after.age.value < DayMs
    ensures var o := FetchChromiumMilestones(disk, up, dateOf);
      var o' := FetchChromiumMilestones(Disk(CacheAfter(disk.cache, o, elapsed), mkdir, writeOk), up', dateOf');
      o'.requests == [] && Data(o'.served) == Data(o.served)
  {
  }
}

=== FILE: text.dfy ===
/** Decimal rendering of integers, as a JavaScript template literal renders an
    integral Number of magnitude below 2^53 (exactly representable, and far
    below the 10^21 where exponent notation starts), and the matching parser. */
module Text {
  import opened Options

  predicate IsDigit(c: char) {
    '0' <= c <= '9'
  }

  predicate AllDigits(s: string) {
    forall i :: 0 <= i < |s| ==> IsDigit(s[i])
  }

  function DigitValue(c: char): (d: nat)
    requires IsDigit(c)
    ensures d < 10
  {
    c as int - '0' as int
  }

  function DigitChar(d: nat): (c: char)
    requires d < 10
    ensures IsDigit(c) && DigitValue(c) == d
  {
    ('0' as int + d) as char
  }

  /** The shortest decimal numeral for `n`: no sign, no leading zero. */
  function NatToString(n: nat): (s: string)
    ensures 1 <= |s|
    ensures AllDigits(s)
    ensures |s| == 1 <==> n < 10
    decreases n
  {
    if n < 10 then [DigitChar(n)] else NatToString(n / 10) + [DigitChar(n % 10)]
  }

  /** `${i}` for an integral Number below 2^53 in magnitude: a minus sign in
      front of negative values. */
  function IntToString(i: int): (s: string)
    ensures 1 <= |s|
    ensures i >= 0 ==> s == NatToString(i)
    ensures i < 0 ==> s[0] == '-'
  {
    if i < 0 then "-" + NatToString(-i) else NatToString(i)
  }

  /** The value of a string of decimal digits, most significant first. */
  function DigitsValue(s: string): nat
    requires AllDigits(s)
  {
    if |s| == 0 then 0 else DigitsValue(s[..|s| - 1]) * 10 + DigitValue(s[|s| - 1])
  }

  /** Reads a non-empty string of decimal digits; leading zeros are accepted. */
  function ParseNat(s: string): (r: Option<nat>)
    ensures r.Some? <==> 1 <= |s| && AllDigits(s)
  {
    if 1 <= |s| && AllDigits(s) then Some(DigitsValue(s)) else None
  }

  /** Rendering then parsing gives the number back, so the rendering is injective. */
  lemma {:induction false} ParseNatToString(n: nat)
    ensures ParseNat(NatToString(n)) == Some(n)
  {
    var s := NatToString(n);
    if n >= 10 {
      ParseNatToString(n / 10);
      assert s[..|s| - 1] == NatToString(n / 10);
      assert DigitValue(s[|s| - 1]) == n % 10;
      assert DigitsValue(s) == (n / 10) * 10 + n % 10;
    }
  }

  /** Widths of the numerals the calendar key relies on. */
  lemma {:induction false} NatToStringWidth(n: nat)
    ensures 10 <= n < 100 ==> |NatToString(n)| == 2
    ensures 1000 <= n < 10000 ==> |NatToString(n)| == 4
  {
    if 10 <= n {
      NatToStringWidth(n / 10);
    }
  }
}
